=== FILE: README.md ===
# MonitorMate core, modelled in Dafny

MonitorMate is a Raycast extension that keeps a list of network resources and checks that
each one is reachable. Each resource has a url, a type, a port, the last status and the
time of the last check. This project models three parts of it, with the network and the UI
stripped away:

- **The resource store** (`store.dfy`). The list is kept as one value under the
  "resources" key.
  - Reading a missing or unparseable value gives the empty list.
  - Update replaces the element at a numeric index, or appends when there is no index
    or the index is the list's length.
  - Delete removes every record with the target's url.
  - Every write reads the whole list, changes it and stores the whole list again.
- **The status sweep** (`sweep.dfy`). It reads the list once, then goes through it in
  index order.
  - Each resource is probed.
  - `{...resource, ...statusResult}` is written back at the resource's own index.
  - A resource found down whose result was written raises an alert: a failure toast
    naming it and then a sound when the user launched the command, a sound alone when it
    runs in the background. If the write raises, no alert is raised.
  - A failure on one resource is caught, and the sweep goes on with the next one.
- **The add/edit form's submit handler** (`add_resource.dfy`).
  - The url must be non-empty, and `parseInt(port)` must lie in 1..65535. Both checks
    always run.
  - A submission that fails either check does nothing.
  - Otherwise the endpoint is probed and stamped with the result. The record is then
    written with replace-or-append, even when the host is down.
  - The success toast says "Updated" when the form was opened on an index and "Added"
    otherwise.
- `parse_int.dfy` models JavaScript's `parseInt` with no radix argument (ECMAScript 2023,
  section 19.2.5), which the port check relies on.
- `resources.dfy` holds the shared records and the event trace.

The environment is modelled with two things.

- **`Attempt`: how one probe-and-write step turns out.** It comes as a parameter, one per
  resource. The probe raises; or the probe answers and the write raises; or both complete.
  The probe's answer carries the status and the ISO timestamp.
- **Observable effects become a trace of `Event`s.** The events are probes, writes, toasts
  and sounds. The properties about alerts count events of one kind with `Only`.

Some behaviour of the program worth stating plainly:

- It keeps no status history: each record holds only the latest status and check time.
- It does not reject a second record for the same (url, port) pair.
- It does not infer the type from the port; the type is whatever the form holds.
- Delete matches on url alone, so records on other ports of the same host are deleted too.
- A host found down is still written by the submit handler, because the early return after
  the unreachable alert is commented out.

## Model

| member | source | states |
|---|---|---|
| Store.Fetch | src/utils.tsx:3-16 | A missing value and an unparseable value both read as the empty list; a stored list reads back as itself. |
| Store.Upsert | src/utils.tsx:20-24 | With an index inside the list: the length is kept, that element becomes the new record and every other element is unchanged. With an index just past the end, or without an index: the length grows by one, the old list is a prefix and the new record is last. |
| Store.UpdateResourceList | src/utils.tsx:18-26 | The stored value is always a saved list, and reading it back gives the replace-or-append of what was read before. |
| Store.RemoveUrl | src/utils.tsx:30 | The filtered list is no longer than the input, and none of its records has the deleted url. |
| Store.RemoveUrlMembers | src/utils.tsx:30 | A record survives the filter exactly when it was in the list and its url differs from the deleted one. |
| Store.RemoveUrlMultiplicity | src/utils.tsx:30 | Every record with a different url survives as many times as it occurred; records with the deleted url do not survive at all. |
| Store.RemoveUrlAppend | src/utils.tsx:30 | The filter distributes over concatenation, so the surviving records keep their relative order. |
| Store.DeleteResource | src/utils.tsx:28-32 | After a delete the stored list holds no record with the target's url, holds only records that were there before, and keeps every record with a different url. |
| Store.DeleteIgnoresPort | src/utils.tsx:30 | Two targets with the same url delete the same records, and a stored record on another port of that url is deleted too. |
| Store.RemoveUrlAbsent | src/utils.tsx:30 | A list in which no record has the url passes the filter unchanged. |
| Store.RemoveUrlIdempotent | src/utils.tsx:30 | Filtering twice by the same url is the same as filtering once. |
| Store.DeleteIdempotent | src/utils.tsx:28-32 | Deleting the same resource twice stores the same value as deleting it once. |
| Store.DeleteAbsentUrl | src/utils.tsx:28-32 | Deleting a url that no stored record has leaves the list unchanged. |
| Resources.Merge | src/check-status.tsx:25 | The spread keeps url, type and port from the resource and takes status and lastChecked from the probe result. |
| Resources.OnlyAppend | src/check-status.tsx:17-39 | Selecting the events of one kind commutes with appending traces; this is how counts of probes, writes and alerts add up over a sweep. |
| Sweep.Alert | src/check-status.tsx:30-35 | A host that is up raises nothing. A host that is down under a user launch raises exactly two events in this order: the failure toast titled "Resource Unreachable" with the message "Resource at <url> is not reachable.", then the sound. A host that is down in the background raises the sound alone. |
| Sweep.StepEvents | src/check-status.tsx:18-38 | Handling resource i starts with its probe. When the probe answered and the write went through, the next event is the write at index i. When the probe or the write raised, the probe is the only event. |
| Sweep.AlertKinds | src/check-status.tsx:30-35 | A down host sounds once and an up host not at all. The failure toast naming the resource appears exactly when the host is down under a user launch. An alert never probes, writes or shows a success toast. |
| Sweep.StepTail | src/check-status.tsx:25-35 | After the probe: nothing when the probe or the write raised; otherwise the write at index i first, then the alert for that probe result. |
| Sweep.StepSplit | src/check-status.tsx:18-38 | The events of any one kind in a step are those of the probe, then those of the write, then those of the alert; a raised attempt contributes nothing after the probe. |
| Sweep.StepProbes | src/check-status.tsx:23 | Handling one resource probes exactly that resource's url and port, once. |
| Sweep.StepWrites | src/check-status.tsx:25 | Handling one resource writes once exactly when the probe answered and the write went through. |
| Sweep.StepSounds | src/check-status.tsx:30-35 | Handling one resource sounds once exactly when it wrote a down result, whatever the launch. |
| Sweep.StepNoSuccess | src/check-status.tsx:18-38 | Handling one resource never shows a success toast. |
| Sweep.StepToasts | src/check-status.tsx:30-31 | Handling one resource shows exactly one failure toast, the one naming its url, when it wrote a down result under a user launch, and none otherwise. |
| Sweep.SettleNext | src/check-status.tsx:25 | Handling resource i changes the stored list only at index i. |
| Sweep.SettleWrite | src/check-status.tsx:25 | Writing the merged record at index i, through the read-modify-write of the store, leaves exactly the list with resource i handled. |
| Sweep.SettledAll | src/check-status.tsx:17-39 | Once every resource is handled, each record whose write went through is merged with its own probe result, each other record is untouched, and url, type and port never change. |
| Sweep.SweepEventsSnoc | src/check-status.tsx:17-39 | Handling one more resource appends its events to the trace of the sweep so far. |
| Sweep.SweepProbesInOrder | src/check-status.tsx:17-23 | Every resource is probed exactly once, in index order, whatever happened to the resources before it (a failure on one does not stop the rest). |
| Sweep.SweepWriteCount | src/check-status.tsx:22-25 | A sweep writes exactly once per resource whose probe answered and whose write went through. |
| Sweep.SweepSoundCount | src/check-status.tsx:30-35 | A sweep sounds once per down result it wrote, under either launch. |
| Sweep.SweepToastCount | src/check-status.tsx:30-35 | A sweep shows one failure toast per down result it wrote under a user launch and none in the background, and never a success toast. |
| Sweep.SweepAll | src/check-status.tsx:17-39 | The loop leaves the list with every resource handled in index order, and its trace is the events of each resource, one after another. |
| Sweep.CheckStatus | src/check-status.tsx:6-43 | An empty list writes nothing and raises nothing. Otherwise the stored list keeps its length; each record whose probe and write went through carries its own probe result; each other record is untouched; url, type and port never change; and the trace is the per-resource events in index order. |
| JsParseInt.DigitVal | src/add-resource.tsx:29 | A character's digit value is at most 36, and it is below 10 exactly for the characters 0 to 9. |
| JsParseInt.SpaceRun | src/add-resource.tsx:29 | The leading white-space run: every character in it is white space, and the character after it is not. |
| JsParseInt.TrimStart | src/add-resource.tsx:29 | Trimming removes only white space, from the front, and leaves text that does not start with white space. |
| JsParseInt.DigitRun | src/add-resource.tsx:29 | The longest digit prefix: every character in it is a digit of the radix, and the character after it is not. |
| JsParseInt.LeadingNumber | src/add-resource.tsx:29 | A number is read exactly when the text starts with a digit of the radix, and it is never negative. |
| JsParseInt.ParseMagnitude | src/add-resource.tsx:29 | After `0x` or `0X` a number is read exactly when a hexadecimal digit follows; otherwise exactly when the text starts with a decimal digit. The magnitude is never negative. |
| JsParseInt.AfterSign | src/add-resource.tsx:29 | At most one leading `-` or `+` is removed, and nothing else. |
| JsParseInt.ParseSigned | src/add-resource.tsx:29 | The sign does not decide whether a number is read, and only a leading `-` makes it negative. |
| JsParseInt.ParseInt | src/add-resource.tsx:29 | After the leading white space and at most one sign, the result is NaN exactly when no decimal digit comes first, or when `0x` is not followed by a hexadecimal digit; a negative result needs a leading `-`. So " 22" and "+22" are numbers, and "" and "http" are NaN. |
| JsParseInt.DigitRunStops | src/add-resource.tsx:29 | In digits followed by a non-digit, the digit run ends exactly where the digits end. |
| JsParseInt.ToDecimal | src/add-resource.tsx:29 | The decimal spelling of a number is non-empty, all digits, and has no leading zero. |
| JsParseInt.MagnitudeOfDecimal | src/add-resource.tsx:29 | Decimal digits followed by a non-digit read as the digits' value, unless the digits are a lone 0 followed by x. |
| JsParseInt.ParseStartingWithDigit | src/add-resource.tsx:29 | Text that starts with a digit has no white space or sign to skip. |
| JsParseInt.ParseDecimalPrefix | src/add-resource.tsx:29 | Decimal digits at the very start parse to their value, whatever non-digit text follows. |
| JsParseInt.ParseSkipsSpace | src/add-resource.tsx:29 | A leading white-space character does not change the result. |
| JsParseInt.ParseSign | src/add-resource.tsx:29 | A leading minus negates the number that follows, and a leading plus leaves it as it is. |
| JsParseInt.DecimalValueRoundTrip | src/add-resource.tsx:29 | The value of the decimal spelling of a number is the number. |
| JsParseInt.ParseIntRoundTrip | src/add-resource.tsx:29 | Parsing the decimal spelling of any natural number gives that number back. |
| JsParseInt.HexDigitVal | src/add-resource.tsx:29 | The hexadecimal digits 0-9 and a-f are worth 0 to 15, as parseInt values them. |
| JsParseInt.DigitValIgnoresCase | src/add-resource.tsx:29 | A capital letter is worth the same as its lower-case form. |
| JsParseInt.ToHex | src/add-resource.tsx:29 | The hexadecimal spelling of a number is non-empty, all hexadecimal digits, and has no leading zero. |
| JsParseInt.HexValueRoundTrip | src/add-resource.tsx:29 | The base-16 value of the hexadecimal spelling of any natural number is that number. |
| JsParseInt.ParseHexRoundTrip | src/add-resource.tsx:29 | Parsing "0x" followed by the hexadecimal spelling of any natural number gives that number back. |
| AddResource.IsValidUrl | src/add-resource.tsx:22-26 | A url is valid exactly when it is non-empty; no scheme is checked, since the prefix test is commented out. |
| AddResource.IsValidPort | src/add-resource.tsx:28-31 | A port is valid exactly when `parseInt` gives a number and it lies in 1..65535; NaN is never valid. |
| AddResource.ActionLabel | src/add-resource.tsx:72 | The label is "Updated" exactly when the form has an index and "Added" exactly when it has none. |
| AddResource.DecimalPortValid | src/add-resource.tsx:28-31 | A port typed as a number's decimal spelling is valid exactly when the number lies in 1..65535. |
| AddResource.DigitsPortValid | src/add-resource.tsx:28-31 | A port typed as decimal digits is valid exactly when their value lies in 1..65535. |
| AddResource.PortZeroRejected | src/add-resource.tsx:30 | Port "0" is rejected. |
| AddResource.PortMaxAccepted | src/add-resource.tsx:30 | Port "65535" is accepted. |
| AddResource.PortPastMaxRejected | src/add-resource.tsx:30 | Port "65536" is rejected. |
| AddResource.PortRejectsText | src/add-resource.tsx:29-30 | The empty port and "http" parse to NaN, which fails both comparisons, so both are rejected. |
| AddResource.PortRejectsNegative | src/add-resource.tsx:29-30 | The sign is kept, so "-22" is rejected. |
| AddResource.PortSkipsLeadingSpace | src/add-resource.tsx:29-30 | " 22" is accepted, because leading white space is skipped. |
| AddResource.PortIgnoresSuffix | src/add-resource.tsx:29-30 | "8080/tcp" is accepted, because whatever follows the digits is ignored. |
| AddResource.PortReadsHex | src/add-resource.tsx:29-30 | "0x50" reads as 80 and is accepted. |
| AddResource.HexPortValid | src/add-resource.tsx:29-30 | A port typed as "0x" and the hexadecimal spelling of a number is valid exactly when the number lies in 1..65535. |
| AddResource.PortMaxHexAccepted | src/add-resource.tsx:29-30 | "0xffff" reads as 65535 and is accepted. |
| AddResource.PortPastMaxHexRejected | src/add-resource.tsx:29-30 | "0x10000" reads as 65536 and is rejected. |
| AddResource.Unreachable | src/add-resource.tsx:60-68 | A host that is up raises nothing. A host that is down raises exactly the failure toast naming url, type and port, then the sound: one failure toast, one sound, no probe, no write, no success toast. |
| AddResource.Written | src/add-resource.tsx:70-77 | After the probe come exactly two events: first the write, at the form's index or as an append, then the success toast titled "Resource Updated" or "Resource Added" whose message says the resource has been updated or added. There is no sound and no failure toast. |
| AddResource.Failed | src/add-resource.tsx:80-82 | The catch block shows exactly one failure toast and nothing else. |
| AddResource.AlertPart | src/add-resource.tsx:55-68 | After the probe: nothing when the probe raised; otherwise exactly the unreachable alert for the probe's answer, which for a down host is the named failure toast followed by the sound. No probe, write or success toast. |
| AddResource.OutcomePart | src/add-resource.tsx:70-82 | When the write goes through: exactly the write at the form's index, then the success toast titled "Resource Added" or "Resource Updated" whose message says the resource has been added or updated. Otherwise: exactly one failure toast carrying the error's message. No probe and no sound either way. |
| AddResource.SubmitEvents | src/add-resource.tsx:51-85 | A submission that passed validation starts with the probe. When the write goes through it ends with a success toast titled by the Added/Updated label; otherwise it ends with the failure toast carrying the error's message. |
| AddResource.SubmitProbes | src/add-resource.tsx:55 | A validated submission probes exactly once, the form's url and port. |
| AddResource.SubmitWrites | src/add-resource.tsx:60-70 | A validated submission writes once, at the form's index or as an append, exactly when the write goes through, whether the host was up or down. |
| AddResource.SubmitSounds | src/add-resource.tsx:60-68 | A validated submission sounds once exactly when the probe reported the host down, even if the write then fails. |
| AddResource.SubmitSuccessToasts | src/add-resource.tsx:72-77 | A validated submission shows one success toast exactly when the write goes through. |
| AddResource.SubmitFailureToasts | src/add-resource.tsx:60-82 | A validated submission shows one failure toast for a host found down, plus one more when the probe or the write raised. |
| AddResource.Stamped | src/add-resource.tsx:53-58 | The written record carries the form's url, type and port and the probe's status and lastChecked. |
| AddResource.SubmitStore | src/add-resource.tsx:55-70 | When the write goes through, the store holds the replace-or-append of the stamped record, whether the host was up or down. Otherwise the store is unchanged. |
| AddResource.HandleSubmit | src/add-resource.tsx:33-86 | The url error is empty exactly when the url is non-empty, and the port error is empty exactly when the port is valid; both are checked on every submission, with their fixed texts. A submission failing either check leaves the store alone and emits nothing. Otherwise it has the store and events above. |

## Left out

- The TCP probe: the socket, its 5-second timeout and the clock (src/utils.tsx:35-60). These are network I/O and time. Each probe's answer, or its exception, is a parameter (`Attempt`).
- `playSound` (src/utils.tsx:69-82). It is a shell call to `afplay`, so it appears only as a `Sound` event. An error from that call is only logged.
- The Raycast UI: the form widgets, `setIsFormLoading`, `popToRoot`, the list view in src/index.tsx and its relative timestamps. Toasts are trace events.
- Console logging.
- LocalStorage and JSON. The stored value is `Missing`, `Corrupt` or a saved list, not JSON text. Stored text that parses to something other than an array of records, such as `null`, is not modelled.
- Store.Upsert: an index more than one past the end of the list is excluded by a precondition. In JavaScript it leaves holes in a sparse array, which the model cannot hold. An index equal to the length appends, as the assignment does. The form only ever passes an index it got from the list.
- Store.DeleteResource: a failing write is not modelled. In the source, `deleteResource` (src/utils.tsx:28-32) has no `try`, so if `LocalStorage.setItem` raises, the stored list stays as it was and the error reaches the list view. The model always stores the filtered list.
- An exception from `showToast` itself is not modelled. Toasts are assumed to be shown.
- JsParseInt.ParseInt: a result is an unbounded integer rather than a double. Rounding a long digit string to a double is monotone and exact below 2^53, so it never moves a value across 0 or 65535, and the port verdict is the same.
- JsParseInt.ParseInt: the `radix` argument is not modelled, because the form never passes one.
- The outer `try` of the sweep (src/check-status.tsx:40-42) catches nothing in the model. Reading the store never raises, and every per-resource failure is caught by the inner `try`.
- Two sweeps or a sweep and a submission running at the same time. The model runs each command on its own.
- src/constants.tsx. It is static reference data that the modelled code does not read.

=== FILE: add_resource.dfy ===
/** The add/edit form's submit handler: check both fields, and when both are valid probe
    the endpoint, stamp the record with the probe's answer and write it with
    replace-or-append. A host that is down is reported and still written. */
module AddResource {
  import opened Resources
  import opened Store
  import opened JsParseInt

  /** The three form fields as typed. */
  datatype Form = Form(url: string, kind: string, port: string)

  /** What one submission leaves behind: the error text of each field ("" when the field
      is valid), the stored blob, and the events in order. */
  datatype Submission = Submission(urlError: string, portError: string, store: Blob, events: seq<Event>)

  const UrlErrorText: string := "Invalid URL. Please enter a valid URL."
  const PortErrorText: string := "Invalid port. Please enter a valid port number."
  const FailedTitle: string := "Failed to Add/Update Resource"

  /** A url is any non-empty text; no scheme is required. */
  predicate IsValidUrl(url: string): (ok: bool)
    ensures ok <==> url != []
  {
    |url| > 0
  }

  /** `parseInt(port)` is a number and lies in 1..65535; NaN fails both comparisons. */
  predicate IsValidPort(port: string): (ok: bool)
    ensures ok ==> ParseInt(port).Some?
    ensures ok <==> ParseInt(port).Some? && 1 <= ParseInt(port).value <= 65535
  {
    match ParseInt(port)
    case None => false
    case Some(n) => n > 0 && n <= 65535
  }

  /** "Updated" when the form was opened on an existing index, "Added" otherwise. */
  function ActionLabel(index: Option<nat>): (word: string)
    ensures index.Some? <==> word == "Updated"
    ensures index.None? <==> word == "Added"
  {
    if index.Some? then "Updated" else "Added"
  }

  function Describe(form: Form): string
  {
    "Resource " + form.url + " of type " + form.kind + " on port " + form.port
  }

  /** The alert for a host found down: the failure toast naming the endpoint, then the
      sound. Nothing for a host that is up. */
  function Unreachable(form: Form, p: ProbeResult): (es: seq<Event>)
    ensures p.status <==> es == []
    ensures !p.status ==>
      |es| == 2 && es[0] == Toast(FailureStyle, FailedTitle, Describe(form) + " is not reachable") && es[1] == Sound
    ensures Only(es, ProbeKind) == [] && Only(es, WriteKind) == [] && Only(es, SuccessToastKind) == []
    ensures |Only(es, FailureToastKind)| == (if p.status then 0 else 1)
    ensures |Only(es, SoundKind)| == (if p.status then 0 else 1)
  {
    if !p.status then [Toast(FailureStyle, FailedTitle, Describe(form) + " is not reachable"), Sound] else []
  }

  /** The events after a completed write: the write itself, then the success toast. */
  function Written(form: Form, index: Option<nat>): (es: seq<Event>)
    ensures Only(es, ProbeKind) == [] && Only(es, SoundKind) == [] && Only(es, FailureToastKind) == []
    ensures Only(es, WriteKind) == [Write(index)]
    ensures |Only(es, SuccessToastKind)| == 1
    ensures |es| == 2 && es[0] == Write(index)
    ensures es[1].Toast? && es[1].style == SuccessStyle && es[1].title == "Resource " + ActionLabel(index)
    ensures es[1].message == Describe(form) + " has been " + (if index.Some? then "updated" else "added")
  {
    var action := ActionLabel(index);
    var lower := if index.Some? then "updated" else "added";
    [Write(index), Toast(SuccessStyle, "Resource " + action, Describe(form) + " has been " + lower)]
  }

  /** The failure toast raised by the catch block, carrying the error's message. */
  function Failed(message: string): (es: seq<Event>)
    ensures Only(es, ProbeKind) == [] && Only(es, WriteKind) == [] && Only(es, SoundKind) == []
    ensures Only(es, SuccessToastKind) == [] && |Only(es, FailureToastKind)| == 1
  {
    [Toast(FailureStyle, FailedTitle, message)]
  }

  /** The probe answered that the host is down (whether or not the write then went through). */
  predicate FoundDown(attempt: Attempt)
  {
    !attempt.ProbeRaised? && !attempt.result.status
  }

  /** What follows the probe of a validated submission: the unreachable alert once the
      probe has answered, nothing when the probe itself raised. */
  function AlertPart(form: Form, attempt: Attempt): (es: seq<Event>)
    ensures attempt.ProbeRaised? ==> es == []
    ensures !attempt.ProbeRaised? ==> es == Unreachable(form, attempt.result)
    ensures Only(es, ProbeKind) == [] && Only(es, WriteKind) == [] && Only(es, SuccessToastKind) == []
    ensures |Only(es, FailureToastKind)| == (if FoundDown(attempt) then 1 else 0)
    ensures |Only(es, SoundKind)| == (if FoundDown(attempt) then 1 else 0)
  {
    if attempt.ProbeRaised? then [] else Unreachable(form, attempt.result)
  }

  /** How a validated submission ends: the write and the success toast when the write went
      through, the failure toast of the catch block otherwise. */
  function OutcomePart(form: Form, index: Option<nat>, attempt: Attempt): (es: seq<Event>)
    ensures attempt.Done? ==> es == Written(form, index)
    ensures !attempt.Done? ==> es == Failed(attempt.message)
    ensures Only(es, ProbeKind) == [] && Only(es, SoundKind) == []
    ensures Only(es, WriteKind) == (if attempt.Done? then [Write(index)] else [])
    ensures |Only(es, SuccessToastKind)| == (if attempt.Done? then 1 else 0)
    ensures |Only(es, FailureToastKind)| == (if attempt.Done? then 0 else 1)
    ensures |es| > 0
    ensures attempt.Done? ==>
      var last := es[|es| - 1];
      last.Toast? && last.style == SuccessStyle && last.title == "Resource " + ActionLabel(index)
    ensures !attempt.Done? ==> es[|es| - 1] == Toast(FailureStyle, FailedTitle, attempt.message)
  {
    if attempt.Done? then Written(form, index) else Failed(attempt.message)
  }

  /** The events of a submission that passed validation: the probe, the unreachable
      alert when the host is down, then the write and the success toast, or a failure toast
      carrying the message of whatever raised. */
  function SubmitEvents(form: Form, index: Option<nat>, attempt: Attempt): (es: seq<Event>)
    ensures |es| > 1 && es[0] == Probe(form.url, form.port)
    ensures attempt.Done? ==>
      var last := es[|es| - 1];
      last.Toast? && last.style == SuccessStyle && last.title == "Resource " + ActionLabel(index)
    ensures !attempt.Done? ==> es[|es| - 1] == Toast(FailureStyle, FailedTitle, attempt.message)
  {
    [Probe(form.url, form.port)] + AlertPart(form, attempt) + OutcomePart(form, index, attempt)
  }

  /** A validated submission probes exactly once. */
  lemma SubmitProbes(form: Form, index: Option<nat>, attempt: Attempt)
    ensures Only(SubmitEvents(form, index, attempt), ProbeKind) == [Probe(form.url, form.port)]
  {
    var alert, outcome := AlertPart(form, attempt), OutcomePart(form, index, attempt);
    assert Only([Probe(form.url, form.port)], ProbeKind) == [Probe(form.url, form.port)];
    CountEvents([Probe(form.url, form.port)], alert, outcome, ProbeKind);
  }

  /** A validated submission writes once exactly when the write goes through, whatever the
      probe answered. */
  lemma SubmitWrites(form: Form, index: Option<nat>, attempt: Attempt)
    ensures Only(SubmitEvents(form, index, attempt), WriteKind) == (if attempt.Done? then [Write(index)] else [])
  {
    var alert, outcome := AlertPart(form, attempt), OutcomePart(form, index, attempt);
    assert Only([Probe(form.url, form.port)], WriteKind) == [];
    CountEvents([Probe(form.url, form.port)], alert, outcome, WriteKind);
  }

  /** A validated submission sounds once exactly when the probe found the host down; the
      sound comes before the write, so it is raised even when the write then fails. */
  lemma SubmitSounds(form: Form, index: Option<nat>, attempt: Attempt)
    ensures |Only(SubmitEvents(form, index, attempt), SoundKind)| == (if FoundDown(attempt) then 1 else 0)
  {
    var alert, outcome := AlertPart(form, attempt), OutcomePart(form, index, attempt);
    assert Only([Probe(form.url, form.port)], SoundKind) == [];
    CountEvents([Probe(form.url, form.port)], alert, outcome, SoundKind);
  }

  /** A validated submission shows one success toast exactly when the write goes through. */
  lemma SubmitSuccessToasts(form: Form, index: Option<nat>, attempt: Attempt)
    ensures |Only(SubmitEvents(form, index, attempt), SuccessToastKind)| == (if attempt.Done? then 1 else 0)
  {
    var alert, outcome := AlertPart(form, attempt), OutcomePart(form, index, attempt);
    assert Only([Probe(form.url, form.port)], SuccessToastKind) == [];
    CountEvents([Probe(form.url, form.port)], alert, outcome, SuccessToastKind);
  }

  /** A validated submission shows one failure toast for a host found down, and one more
      when the probe or the write raised. */
  lemma SubmitFailureToasts(form: Form, index: Option<nat>, attempt: Attempt)
    ensures |Only(SubmitEvents(form, index, attempt), FailureToastKind)| ==
      (if FoundDown(attempt) then 1 else 0) + (if attempt.Done? then 0 else 1)
  {
    var alert, outcome := AlertPart(form, attempt), OutcomePart(form, index, attempt);
    assert Only([Probe(form.url, form.port)], FailureToastKind) == [];
    CountEvents([Probe(form.url, form.port)], alert, outcome, FailureToastKind);
  }

  /** The record a submission writes: the form's fields stamped with the probe's answer. */
  function Stamped(form: Form, p: ProbeResult): (r: Resource)
    ensures r.url == form.url && r.kind == form.kind && r.port == form.port
    ensures r.status == p.status && r.lastChecked == p.lastChecked
  {
    Resource(form.url, form.kind, form.port, p.status, p.lastChecked)
  }

  /** The blob after a submission that passed validation: written with replace-or-append
      when the write went through, whatever the probe answered; untouched otherwise. */
  function SubmitStore(form: Form, index: Option<nat>, b: Blob, attempt: Attempt): (b': Blob)
    requires index.Some? ==> index.value <= |Fetch(b)|
    ensures attempt.Done? ==> Fetch(b') == Upsert(Fetch(b), Stamped(form, attempt.result), index)
    ensures !attempt.Done? ==> b' == b
  {
    if attempt.Done? then UpdateResourceList(b, Stamped(form, attempt.result), index) else b
  }

  /** One press of the submit button. `attempt` is how the probe and the write turn out.
      Both fields are always checked; nothing is probed or written unless both pass. */
  function HandleSubmit(form: Form, index: Option<nat>, b: Blob, attempt: Attempt): (s: Submission)
    requires index.Some? ==> index.value <= |Fetch(b)|
    ensures s.urlError == "" <==> |form.url| > 0
    ensures s.portError == "" <==> IsValidPort(form.port)
    ensures s.urlError != "" ==> s.urlError == UrlErrorText
    ensures s.portError != "" ==> s.portError == PortErrorText
    ensures !(|form.url| > 0 && IsValidPort(form.port)) ==> s.store == b && s.events == []
    ensures |form.url| > 0 && IsValidPort(form.port) ==>
      s.store == SubmitStore(form, index, b, attempt) && s.events == SubmitEvents(form, index, attempt)
  {
    var urlError := if IsValidUrl(form.url) then "" else UrlErrorText;
    var portError := if IsValidPort(form.port) then "" else PortErrorText;
    if !IsValidUrl(form.url) || !IsValidPort(form.port) then
      Submission(urlError, portError, b, [])
    else
      Submission(urlError, portError, SubmitStore(form, index, b, attempt), SubmitEvents(form, index, attempt))
  }

  /** Selecting a kind from a three-part trace selects it from each part. */
  lemma CountEvents(a: seq<Event>, m: seq<Event>, z: seq<Event>, k: EventKind)
    ensures Only(a + m + z, k) == Only(a, k) + Only(m, k) + Only(z, k)
    ensures |Only(a + m + z, k)| == |Only(a, k)| + |Only(m, k)| + |Only(z, k)|
  {
    OnlyAppend(a + m, z, k);
    OnlyAppend(a, m, k);
  }

  /** A port typed as the decimal spelling of a number is valid exactly when the number
      lies in 1..65535. */
  lemma DecimalPortValid(n: nat)
    ensures IsValidPort(ToDecimal(n)) <==> 1 <= n <= 65535
  {
    ParseIntRoundTrip(n);
  }

  /** A port spelled in decimal digits is valid exactly when its value lies in 1..65535. */
  lemma DigitsPortValid(d: string)
    requires |d| > 0 && AllDigits(d, 10)
    ensures IsValidPort(d) <==> 1 <= DigitsValue(d, 10) <= 65535
  {
    assert d + [] == d;
    ParseDecimalPrefix(d, []);
  }

  /** Port 0 is out of range. */
  lemma PortZeroRejected()
    ensures !IsValidPort("0")
  {
    assert "0"[..0] == "";
    DigitsPortValid("0");
  }

  /** The highest port is accepted. */
  lemma PortMaxAccepted()
    ensures IsValidPort("65535")
  {
    assert DigitsValue("6", 10) == 6 by { assert "6"[..0] == ""; }
    assert DigitsValue("65", 10) == 65 by { assert "65"[..1] == "6"; }
    assert DigitsValue("655", 10) == 655 by { assert "655"[..2] == "65"; }
    assert DigitsValue("6553", 10) == 6553 by { assert "6553"[..3] == "655"; }
    assert DigitsValue("65535", 10) == 65535 by { assert "65535"[..4] == "6553"; }
    DigitsPortValid("65535");
  }

  /** One past the highest port is rejected. */
  lemma PortPastMaxRejected()
    ensures !IsValidPort("65536")
  {
    assert DigitsValue("6", 10) == 6 by { assert "6"[..0] == ""; }
    assert DigitsValue("65", 10) == 65 by { assert "65"[..1] == "6"; }
    assert DigitsValue("655", 10) == 655 by { assert "655"[..2] == "65"; }
    assert DigitsValue("6553", 10) == 6553 by { assert "6553"[..3] == "655"; }
    assert DigitsValue("65536", 10) == 65536 by { assert "65536"[..4] == "6553"; }
    DigitsPortValid("65536");
  }

  /** The empty text and "http" are NaN, so both are rejected. */
  lemma PortRejectsText()
    ensures !IsValidPort("") && !IsValidPort("http")
  {
    assert TrimStart("") == "";
    assert !IsJsSpace('h') && SpaceRun("http") == 0;
    assert AfterSign(TrimStart("http")) == "http";
  }

  /** "22" reads as 22, with or without the sign and white-space handling around it. */
  lemma ReadsTwentyTwo()
    ensures ParseMagnitude("22") == Some(22)
    ensures ParseInt("22") == Some(22)
  {
    assert DigitsValue("22", 10) == 22 by {
      assert "22"[..1] == "2" && "2"[..0] == "";
    }
    assert "22" + [] == "22";
    MagnitudeOfDecimal("22", []);
    ParseDecimalPrefix("22", []);
  }

  /** A sign is kept, so a negative port is rejected even when its digits are in range. */
  lemma PortRejectsNegative()
    ensures !IsValidPort("-22")
  {
    ReadsTwentyTwo();
    assert "-22" == "-" + "22";
    ParseSign("22");
  }

  /** `parseInt` skips leading white space. */
  lemma PortSkipsLeadingSpace()
    ensures IsValidPort(" 22")
  {
    ReadsTwentyTwo();
    ParseSkipsSpace(" 22");
    assert " 22"[1..] == "22";
  }

  /** `parseInt` ignores whatever follows the digits. */
  lemma PortIgnoresSuffix()
    ensures IsValidPort("8080/tcp")
  {
    assert "8080/tcp" == "8080" + "/tcp";
    assert "8080"[..3] == "808";
    assert "808"[..2] == "80";
    assert "80"[..1] == "8";
    assert "8"[..0] == "";
    ParseDecimalPrefix("8080", "/tcp");
  }

  /** A port typed as `0x` and the hexadecimal spelling of a number is valid exactly when
      the number lies in 1..65535. */
  lemma HexPortValid(n: nat)
    ensures IsValidPort("0x" + ToHex(n)) <==> 1 <= n <= 65535
  {
    ParseHexRoundTrip(n);
  }

  /** The highest port spelled in hexadecimal letters is accepted. */
  lemma PortMaxHexAccepted()
    ensures IsValidPort("0xffff")
  {
    var f := HexDigits[15];
    assert f == 'f';
    assert ToHex(15) == [f];
    assert ToHex(255) == ToHex(15) + [f];
    assert ToHex(4095) == ToHex(255) + [f];
    assert ToHex(65535) == ToHex(4095) + [f];
    assert "0x" + ToHex(65535) == "0xffff";
    HexPortValid(65535);
  }

  /** One past the highest port, in hexadecimal, is rejected. */
  lemma PortPastMaxHexRejected()
    ensures !IsValidPort("0x10000")
  {
    var z := HexDigits[0];
    assert z == '0' && HexDigits[1] == '1';
    assert ToHex(1) == "1";
    assert ToHex(16) == ToHex(1) + [z];
    assert ToHex(256) == ToHex(16) + [z];
    assert ToHex(4096) == ToHex(256) + [z];
    assert ToHex(65536) == ToHex(4096) + [z];
    assert "0x" + ToHex(65536) == "0x10000";
    HexPortValid(65536);
  }

  /** `parseInt` reads a `0x` prefix as hexadecimal: "0x50" is port 80. */
  lemma PortReadsHex()
    ensures ParseInt("0x50") == Some(80)
    ensures IsValidPort("0x50")
  {
    assert LeadingNumber("50", 16) == Some(80) by {
      assert "50" + [] == "50";
      DigitRunStops("50", [], 16);
      assert "50"[..2] == "50" && "50"[..1] == "5" && "5"[..0] == "";
    }
    assert ParseMagnitude("0x50") == LeadingNumber("50", 16) by {
      assert "0x50"[2..] == "50";
    }
    ParseStartingWithDigit("0x50");
  }
}

=== FILE: parse_int.dfy ===
/** JavaScript's `parseInt(s)` with no radix argument (ECMAScript 2023, section 19.2.5):
    skip leading white space, read an optional sign, read a `0x`/`0X` prefix as base 16
    and otherwise base 10, then take the longest run of digits of that base and ignore
    whatever follows. No digits at all gives NaN, modelled as `None`.
    Values are unbounded integers: the port check only compares against 0 and 65535, and
    rounding a digit string to a double never moves it across either bound. */
module JsParseInt {
  import opened Resources

  /** White space and line terminators as `StrWhiteSpaceChar` admits them
      (ECMAScript 2023, sections 12.2, 12.3 and 7.1.4.1.1). */
  predicate IsJsSpace(c: char)
  {
    || c == '\t' || c == '\n' || c == '\U{B}' || c == '\U{C}' || c == '\r'
    || c == ' ' || c == '\U{A0}' || c == '\U{1680}'
    || ('\U{2000}' <= c <= '\U{200A}')
    || c == '\U{2028}' || c == '\U{2029}' || c == '\U{202F}' || c == '\U{205F}'
    || c == '\U{3000}' || c == '\U{FEFF}'
  }

  /** The value of `c` as a digit in any base up to 36; 36 for a character that is no digit. */
  function DigitVal(c: char): (d: nat)
    ensures d <= 36
    ensures d < 10 <==> '0' <= c <= '9'
  {
    if '0' <= c <= '9' then c as int - '0' as int
    else if 'a' <= c <= 'z' then c as int - 'a' as int + 10
    else if 'A' <= c <= 'Z' then c as int - 'A' as int + 10
    else 36
  }

  predicate IsDigitIn(c: char, radix: nat)
  {
    DigitVal(c) < radix
  }

  predicate AllDigits(s: string, radix: nat)
  {
    forall j :: 0 <= j < |s| ==> IsDigitIn(s[j], radix)
  }

  predicate AllJsSpace(s: string)
  {
    forall j :: 0 <= j < |s| ==> IsJsSpace(s[j])
  }

  /** The length of the longest prefix of `s` made of white space. */
  function SpaceRun(s: string): (k: nat)
    ensures k <= |s|
    ensures AllJsSpace(s[..k])
    ensures k < |s| ==> !IsJsSpace(s[k])
  {
    if s != [] && IsJsSpace(s[0]) then
      var k := 1 + SpaceRun(s[1..]);
      assert s[..k] == [s[0]] + s[1..][..k - 1];
      k
    else 0
  }

  /** Drops the leading white space, and nothing else. */
  function TrimStart(s: string): (t: string)
    ensures |t| <= |s| && t == s[|s| - |t|..]
    ensures AllJsSpace(s[..|s| - |t|])
    ensures t == [] || !IsJsSpace(t[0])
  {
    s[SpaceRun(s)..]
  }

  /** The length of the longest prefix of `s` made of digits in `radix`. */
  function DigitRun(s: string, radix: nat): (k: nat)
    ensures k <= |s|
    ensures AllDigits(s[..k], radix)
    ensures k < |s| ==> !IsDigitIn(s[k], radix)
  {
    if s != [] && IsDigitIn(s[0], radix) then
      var k := 1 + DigitRun(s[1..], radix);
      assert s[..k] == [s[0]] + s[1..][..k - 1];
      k
    else 0
  }

  /** Positional value of a digit string, most significant digit first. */
  function DigitsValue(d: string, radix: nat): nat
  {
    if d == [] then 0 else DigitsValue(d[..|d| - 1], radix) * radix + DigitVal(d[|d| - 1])
  }

  /** The value of the longest run of `radix` digits at the start of `s`; `None` when
      there is none. */
  function LeadingNumber(s: string, radix: nat): (n: Option<int>)
    ensures n.Some? <==> s != [] && IsDigitIn(s[0], radix)
    ensures n.Some? ==> n.value >= 0
  {
    var k := DigitRun(s, radix);
    if k == 0 then None else Some(DigitsValue(s[..k], radix))
  }

  /** `0x` or `0X` in front: the number is read in base 16. */
  predicate HexPrefixed(u: string)
  {
    |u| >= 2 && u[0] == '0' && (u[1] == 'x' || u[1] == 'X')
  }

  /** The number after the sign: hexadecimal behind `0x` or `0X`, decimal otherwise.
      It is NaN exactly when no digit of that base comes first. */
  function ParseMagnitude(u: string): (n: Option<int>)
    ensures n.Some? <==> if HexPrefixed(u) then |u| > 2 && IsDigitIn(u[2], 16) else u != [] && '0' <= u[0] <= '9'
    ensures n.Some? ==> n.value >= 0
  {
    if HexPrefixed(u) then LeadingNumber(u[2..], 16)
    else LeadingNumber(u, 10)
  }

  /** The text after at most one leading sign. */
  function AfterSign(t: string): (u: string)
    ensures t != [] && (t[0] == '-' || t[0] == '+') ==> u == t[1..]
    ensures t == [] || (t[0] != '-' && t[0] != '+') ==> u == t
  {
    if t != [] && (t[0] == '-' || t[0] == '+') then t[1..] else t
  }

  /** The text after the leading white space: an optional sign, then the magnitude.
      Only a leading `-` makes the result negative. */
  function ParseSigned(t: string): (n: Option<int>)
    ensures n.Some? <==> ParseMagnitude(AfterSign(t)).Some?
    ensures n.Some? && n.value < 0 ==> t != [] && t[0] == '-'
  {
    var m := ParseMagnitude(AfterSign(t));
    if t != [] && t[0] == '-' then
      match m
      case None => None
      case Some(v) => Some(-v)
    else m
  }

  /** `parseInt(s)`; `None` stands for NaN. After the white space and at most one sign,
      a number needs a decimal digit, or `0x` followed by a hexadecimal digit. */
  function ParseInt(s: string): (n: Option<int>)
    ensures var u := AfterSign(TrimStart(s));
      n.Some? <==> if HexPrefixed(u) then |u| > 2 && IsDigitIn(u[2], 16) else u != [] && '0' <= u[0] <= '9'
    ensures n.Some? && n.value < 0 ==> TrimStart(s) != [] && TrimStart(s)[0] == '-'
  {
    ParseSigned(TrimStart(s))
  }

  /** The decimal spelling of `n`, without sign or leading zeros. */
  function ToDecimal(n: nat): (s: string)
    ensures |s| > 0 && AllDigits(s, 10)
    ensures |s| > 1 ==> s[0] != '0'
  {
    var last := ['0' + (n % 10) as char];
    if n < 10 then last else ToDecimal(n / 10) + last
  }

  /** The hexadecimal digits, lower case, in order of value. */
  const HexDigits: string := "0123456789abcdef"

  /** The lower-case hexadecimal spelling of `n`, without prefix or leading zeros. */
  function ToHex(n: nat): (s: string)
    ensures |s| > 0 && AllDigits(s, 16)
    ensures |s| > 1 ==> s[0] != '0'
  {
    HexDigitVal(n % 16);
    var last := [HexDigits[n % 16]];
    if n < 16 then last else ToHex(n / 16) + last
  }

  /** Each character of the table is worth its position, as ECMAScript parseInt values
      the letters a-f as 10-15. */
  lemma HexDigitVal(k: nat)
    requires k < 16
    ensures DigitVal(HexDigits[k]) == k
  {
    if k < 10 {
      assert HexDigits[k] == '0' + k as char;
    } else {
      assert HexDigits[k] == 'a' + (k - 10) as char;
    }
  }

  /** A capital letter is worth the same as its lower-case form, so `0XFF` and `0xff` read
      alike. */
  lemma DigitValIgnoresCase(c: char)
    requires 'a' <= c <= 'z'
    ensures DigitVal((c as int - 32) as char) == DigitVal(c)
  {
  }

  /** The run of digits of `d + rest` stops exactly where `d` ends. */
  lemma {:induction false} DigitRunStops(d: string, rest: string, radix: nat)
    requires AllDigits(d, radix)
    requires rest == [] || !IsDigitIn(rest[0], radix)
    ensures DigitRun(d + rest, radix) == |d|
  {
    if d != [] {
      assert (d + rest)[1..] == d[1..] + rest;
      DigitRunStops(d[1..], rest, radix);
    } else {
      assert d + rest == rest;
    }
  }

  /** A decimal number followed by anything that is not a digit reads as that number,
      unless it is the single digit 0 followed by `x`, which starts a hexadecimal number. */
  lemma MagnitudeOfDecimal(d: string, rest: string)
    requires |d| > 0 && AllDigits(d, 10)
    requires rest == [] || !IsDigitIn(rest[0], 10)
    requires d == "0" ==> rest == [] || (rest[0] != 'x' && rest[0] != 'X')
    ensures ParseMagnitude(d + rest) == Some(DigitsValue(d, 10))
  {
    var s := d + rest;
    assert s[0] == d[0] && IsDigitIn(d[0], 10);
    if |s| >= 2 && s[0] == '0' {
      if |d| == 1 {
        assert s[1] == rest[0];
      } else {
        assert s[1] == d[1] && IsDigitIn(d[1], 10);
      }
    }
    DigitRunStops(d, rest, 10);
    assert s[..|d|] == d;
  }

  /** Text that starts with a digit has no white space or sign to skip. */
  lemma ParseStartingWithDigit(s: string)
    requires s != [] && '0' <= s[0] <= '9'
    ensures ParseInt(s) == ParseMagnitude(s)
  {
    assert !IsJsSpace(s[0]);
    assert SpaceRun(s) == 0;
    assert TrimStart(s) == s;
    assert s[0] != '-' && s[0] != '+';
  }

  /** A decimal number at the very start parses to that number. */
  lemma ParseDecimalPrefix(d: string, rest: string)
    requires |d| > 0 && AllDigits(d, 10)
    requires rest == [] || !IsDigitIn(rest[0], 10)
    requires d == "0" ==> rest == [] || (rest[0] != 'x' && rest[0] != 'X')
    ensures ParseInt(d + rest) == Some(DigitsValue(d, 10))
  {
    assert (d + rest)[0] == d[0] && IsDigitIn(d[0], 10);
    ParseStartingWithDigit(d + rest);
    MagnitudeOfDecimal(d, rest);
  }

  /** A leading white-space character is skipped. */
  lemma ParseSkipsSpace(s: string)
    requires s != [] && IsJsSpace(s[0])
    ensures ParseInt(s) == ParseInt(s[1..])
  {
    assert TrimStart(s) == TrimStart(s[1..]);
  }

  /** A sign in front of a number is kept: `-` negates, `+` does not. */
  lemma ParseSign(u: string)
    ensures ParseInt("-" + u) == (match ParseMagnitude(u) case None => None case Some(v) => Some(-v))
    ensures ParseInt("+" + u) == ParseMagnitude(u)
  {
    assert ("-" + u)[1..] == u;
    assert ("+" + u)[1..] == u;
    assert TrimStart("-" + u) == "-" + u;
    assert TrimStart("+" + u) == "+" + u;
  }

  /** Reading back the decimal spelling of a number gives the number. */
  lemma {:induction false} DecimalValueRoundTrip(n: nat)
    ensures DigitsValue(ToDecimal(n), 10) == n
  {
    var s := ToDecimal(n);
    if n >= 10 {
      DecimalValueRoundTrip(n / 10);
      assert s[..|s| - 1] == ToDecimal(n / 10);
    }
  }

  /** Reading back the hexadecimal spelling of a number gives the number. */
  lemma {:induction false} HexValueRoundTrip(n: nat)
    ensures DigitsValue(ToHex(n), 16) == n
  {
    var s := ToHex(n);
    HexDigitVal(n % 16);
    if n >= 16 {
      HexValueRoundTrip(n / 16);
      assert s[..|s| - 1] == ToHex(n / 16);
    }
  }

  /** `parseInt` reads `0x` followed by the hexadecimal spelling of any natural number
      back as that number. */
  lemma ParseHexRoundTrip(n: nat)
    ensures ParseInt("0x" + ToHex(n)) == Some(n)
  {
    var h := ToHex(n);
    var s := "0x" + h;
    assert LeadingNumber(h, 16) == Some(n) by {
      assert h + [] == h;
      DigitRunStops(h, [], 16);
      assert h[..|h|] == h;
      HexValueRoundTrip(n);
    }
    assert ParseMagnitude(s) == LeadingNumber(h, 16) by {
      assert HexPrefixed(s) && s[2..] == h;
    }
    ParseStartingWithDigit(s);
  }

  /** `parseInt` inverts the decimal spelling of every natural number. */
  lemma ParseIntRoundTrip(n: nat)
    ensures ParseInt(ToDecimal(n)) == Some(n)
  {
    var s := ToDecimal(n);
    assert s + [] == s;
    ParseDecimalPrefix(s, []);
    DecimalValueRoundTrip(n);
  }
}

=== FILE: resources.dfy ===
/** Records shared by the resource store, the monitoring sweep and the add/edit form:
    the persisted resource record, the probe's answer, the environment's answer for one
    probe-and-write step, and the events (probes, writes, toasts, sounds) a run emits. */
module Resources {

  datatype Option<+T> = None | Some(value: T)

  /** One monitored endpoint as it is persisted under the "resources" key.
      `kind` is the record's `type` field; `port` is kept as the form's text. */
  datatype Resource = Resource(url: string, kind: string, port: string, status: bool, lastChecked: string)

  /** What one TCP probe reports: reachability and the ISO time the probe started. */
  datatype ProbeResult = ProbeResult(status: bool, lastChecked: string)

  /** How one probe-then-write step goes, as decided by the network and the storage layer:
      the probe itself raises, the probe answers but the write raises, or both complete. */
  datatype Attempt =
    | ProbeRaised(message: string)
    | WriteRaised(result: ProbeResult, message: string)
    | Done(result: ProbeResult)

  /** `{...resource, ...statusResult}`: the probe's fields overwrite the record's, the rest is kept. */
  function Merge(r: Resource, p: ProbeResult): (m: Resource)
    ensures m.url == r.url && m.kind == r.kind && m.port == r.port
    ensures m.status == p.status && m.lastChecked == p.lastChecked
  {
    r.(status := p.status, lastChecked := p.lastChecked)
  }

  datatype ToastStyle = SuccessStyle | FailureStyle

  /** Observable effects, in the order they happen. */
  datatype Event =
    | Probe(url: string, port: string)
    | Write(index: Option<nat>)
    | Toast(style: ToastStyle, title: string, message: string)
    | Sound

  /** Events told apart by what they do; toasts by their style. */
  datatype EventKind = ProbeKind | WriteKind | SuccessToastKind | FailureToastKind | SoundKind

  function KindOf(e: Event): EventKind
  {
    match e
    case Probe(_, _) => ProbeKind
    case Write(_) => WriteKind
    case Toast(style, _, _) => if style == SuccessStyle then SuccessToastKind else FailureToastKind
    case Sound => SoundKind
  }

  /** The events of kind `k`, in trace order. */
  function Only(es: seq<Event>, k: EventKind): (out: seq<Event>)
    ensures |out| <= |es|
    ensures forall i :: 0 <= i < |out| ==> KindOf(out[i]) == k
  {
    if es == [] then []
    else (if KindOf(es[0]) == k then [es[0]] else []) + Only(es[1..], k)
  }

  /** Selecting a kind commutes with concatenating traces. */
  lemma {:induction false} OnlyAppend(a: seq<Event>, b: seq<Event>, k: EventKind)
    ensures Only(a + b, k) == Only(a, k) + Only(b, k)
  {
    if a == [] {
      assert a + b == b;
    } else {
      assert (a + b)[1..] == a[1..] + b;
      OnlyAppend(a[1..], b, k);
    }
  }
}

=== FILE: store.dfy ===
/** The persisted resource list: reading it back, replace-or-append, and delete by url.
    Every write reads the whole list, changes it, and stores the whole list again. */
module Store {
  import opened Resources

  /** The value stored under the "resources" key: nothing (or an empty string),
      text that does not parse, or a serialised list of records. */
  datatype Blob = Missing | Corrupt | Saved(resources: seq<Resource>)

  /** Reading never fails: a missing or unparseable blob reads as the empty list. */
  function Fetch(b: Blob): (rs: seq<Resource>)
    ensures b.Missing? || b.Corrupt? ==> rs == []
    ensures b.Saved? ==> rs == b.resources
  {
    match b
    case Missing => []
    case Corrupt => []
    case Saved(rs) => rs
  }

  /** `resources[index] = resource` or `resources.push(resource)`: replace the element at
      a numeric index inside the list; an index just past the end, or no index at all,
      appends. */
  function Upsert(rs: seq<Resource>, r: Resource, index: Option<nat>): (out: seq<Resource>)
    requires index.Some? ==> index.value <= |rs|
    ensures index.Some? && index.value < |rs| ==> |out| == |rs| && out[index.value] == r
    ensures index.Some? && index.value < |rs| ==>
      forall j :: 0 <= j < |rs| && j != index.value ==> out[j] == rs[j]
    ensures index.None? || index.value == |rs| ==> |out| == |rs| + 1 && out[..|rs|] == rs && out[|rs|] == r
  {
    match index
    case Some(i) => if i < |rs| then rs[i := r] else rs + [r]
    case None => rs + [r]
  }

  /** Fetch, upsert, store: what is read back afterwards is the upserted list. */
  function UpdateResourceList(b: Blob, r: Resource, index: Option<nat>): (b': Blob)
    requires index.Some? ==> index.value <= |Fetch(b)|
    ensures b'.Saved?
    ensures Fetch(b') == Upsert(Fetch(b), r, index)
  {
    Saved(Upsert(Fetch(b), r, index))
  }

  /** The records whose url differs from `url`, in their original order. */
  function RemoveUrl(rs: seq<Resource>, url: string): (out: seq<Resource>)
    ensures |out| <= |rs|
    ensures forall i :: 0 <= i < |out| ==> out[i].url != url
  {
    if rs == [] then []
    else (if rs[0].url != url then [rs[0]] else []) + RemoveUrl(rs[1..], url)
  }

  /** Delete every stored record sharing the target's url, whatever its port. */
  function DeleteResource(b: Blob, target: Resource): (b': Blob)
    ensures b'.Saved?
    ensures forall x :: x in Fetch(b') ==> x.url != target.url && x in Fetch(b)
    ensures forall x :: x in Fetch(b) && x.url != target.url ==> x in Fetch(b')
  {
    RemoveUrlMembers(Fetch(b), target.url);
    Saved(RemoveUrl(Fetch(b), target.url))
  }

  /** Removal keeps the relative order: it distributes over concatenation. */
  lemma {:induction false} RemoveUrlAppend(a: seq<Resource>, b: seq<Resource>, url: string)
    ensures RemoveUrl(a + b, url) == RemoveUrl(a, url) + RemoveUrl(b, url)
  {
    if a == [] {
      assert a + b == b;
    } else {
      assert (a + b)[1..] == a[1..] + b;
      RemoveUrlAppend(a[1..], b, url);
    }
  }

  /** Removal keeps exactly the records with a different url. */
  lemma RemoveUrlMembers(rs: seq<Resource>, url: string)
    ensures forall x :: x in RemoveUrl(rs, url) <==> x in rs && x.url != url
  {
    forall x
      ensures x in RemoveUrl(rs, url) <==> x in rs && x.url != url
    {
      RemoveUrlMultiplicity(rs, url, x);
    }
  }

  /** Removal keeps every surviving record as many times as it occurred. */
  lemma {:induction false} RemoveUrlMultiplicity(rs: seq<Resource>, url: string, x: Resource)
    ensures multiset(RemoveUrl(rs, url))[x] == if x.url == url then 0 else multiset(rs)[x]
  {
    if rs != [] {
      RemoveUrlMultiplicity(rs[1..], url, x);
      assert rs == [rs[0]] + rs[1..];
      assert multiset(rs)[x] == multiset([rs[0]])[x] + multiset(rs[1..])[x];
      if rs[0].url != url {
        assert RemoveUrl(rs, url) == [rs[0]] + RemoveUrl(rs[1..], url);
      } else {
        assert RemoveUrl(rs, url) == RemoveUrl(rs[1..], url);
      }
    }
  }

  /** A list with no record for `url` is left as it is. */
  lemma {:induction false} RemoveUrlAbsent(rs: seq<Resource>, url: string)
    requires forall x :: x in rs ==> x.url != url
    ensures RemoveUrl(rs, url) == rs
  {
    if rs != [] {
      assert forall x :: x in rs[1..] ==> x in rs;
      RemoveUrlAbsent(rs[1..], url);
      assert [rs[0]] + rs[1..] == rs;
    }
  }

  /** Removing twice is removing once. */
  lemma RemoveUrlIdempotent(rs: seq<Resource>, url: string)
    ensures RemoveUrl(RemoveUrl(rs, url), url) == RemoveUrl(rs, url)
  {
    RemoveUrlAbsent(RemoveUrl(rs, url), url);
  }

  /** Deleting the same resource twice stores the same list as deleting it once. */
  lemma DeleteIdempotent(b: Blob, target: Resource)
    ensures DeleteResource(DeleteResource(b, target), target) == DeleteResource(b, target)
  {
    RemoveUrlIdempotent(Fetch(b), target.url);
  }

  /** Deleting a url that no record carries leaves the list unchanged. */
  lemma DeleteAbsentUrl(b: Blob, target: Resource)
    requires forall x :: x in Fetch(b) ==> x.url != target.url
    ensures Fetch(DeleteResource(b, target)) == Fetch(b)
  {
    RemoveUrlAbsent(Fetch(b), target.url);
  }

  /** Delete keys on url alone: two targets with the same url delete the same records. */
  lemma DeleteIgnoresPort(b: Blob, t1: Resource, t2: Resource, other: Resource)
    requires t1.url == t2.url
    requires other in Fetch(b) && other.url == t1.url && other.port != t1.port
    ensures DeleteResource(b, t1) == DeleteResource(b, t2)
    ensures other !in Fetch(DeleteResource(b, t1))
  {
  }
}

=== FILE: sweep.dfy ===
/** The status sweep: read the resource list once, then probe every resource in index
    order, write each probe result back at the resource's own index, and raise an alert
    for every resource whose down result was written. A failure on one resource is caught
    and the sweep moves on to the next. */
module Sweep {
  import opened Resources
  import opened Store

  /** How the sweep was started: by the user, or by the background scheduler. */
  datatype LaunchType = UserInitiated | Background

  const UnreachableTitle: string := "Resource Unreachable"

  /** The failure toast the sweep shows for a resource found down. */
  function UnreachableToast(url: string): Event
  {
    Toast(FailureStyle, UnreachableTitle, "Resource at " + url + " is not reachable.")
  }

  /** The alert for one written probe result: a failure toast naming the resource and then
      a sound when the user launched the sweep, a sound alone otherwise, nothing for a host
      that is up. */
  function Alert(launch: LaunchType, url: string, up: bool): (es: seq<Event>)
    ensures up <==> es == []
    ensures !up ==> es[|es| - 1] == Sound
    ensures !up && launch.UserInitiated? ==> |es| == 2 && es[0] == UnreachableToast(url)
    ensures !up && launch.Background? ==> |es| == 1
  {
    if !up && launch == UserInitiated then
      [UnreachableToast(url), Sound]
    else if !up then
      [Sound]
    else
      []
  }

  /** An alert sounds once for a host that is down and shows the failure toast naming the
      resource only under a user launch; it never probes, writes or shows a success toast. */
  lemma AlertKinds(launch: LaunchType, url: string, up: bool)
    ensures |Only(Alert(launch, url, up), SoundKind)| == (if up then 0 else 1)
    ensures Only(Alert(launch, url, up), FailureToastKind) ==
      (if !up && launch.UserInitiated? then [UnreachableToast(url)] else [])
    ensures Only(Alert(launch, url, up), ProbeKind) == [] && Only(Alert(launch, url, up), WriteKind) == []
    ensures Only(Alert(launch, url, up), SuccessToastKind) == []
  {
    var es := Alert(launch, url, up);
    if !up && launch.UserInitiated? {
      assert es == [UnreachableToast(url)] + [Sound];
      forall k
        ensures Only(es, k) == Only([UnreachableToast(url)], k) + Only([Sound], k)
      {
        OnlyAppend([UnreachableToast(url)], [Sound], k);
      }
    }
  }

  /** The attempt wrote a result that says the host is down. */
  predicate Alerting(a: Attempt)
  {
    a.Done? && !a.result.status
  }

  /** The number of attempts, among `attempts`, that completed their write. */
  function Completions(attempts: seq<Attempt>): nat
  {
    if attempts == [] then 0
    else Completions(attempts[..|attempts| - 1]) + (if attempts[|attempts| - 1].Done? then 1 else 0)
  }

  /** The number of attempts, among `attempts`, that wrote a down result. */
  function Downs(attempts: seq<Attempt>): nat
  {
    if attempts == [] then 0
    else Downs(attempts[..|attempts| - 1]) + (if Alerting(attempts[|attempts| - 1]) then 1 else 0)
  }

  /** What follows the probe of resource `i`: the write at index `i` and then the alert
      when the probe answered and the write went through; nothing when either raised. */
  function StepTail(launch: LaunchType, i: nat, r: Resource, a: Attempt): (es: seq<Event>)
    ensures !a.Done? ==> es == []
    ensures a.Done? ==> |es| > 0 && es[0] == Write(Some(i)) && es[1..] == Alert(launch, r.url, a.result.status)
  {
    if a.Done? then [Write(Some(i))] + Alert(launch, r.url, a.result.status) else []
  }

  /** The events of handling resource `i`: its probe, then, when the probe answered and
      the write went through, the write at index `i` followed by the alert. When the probe
      or the write raised, the probe is all there is. */
  function StepEvents(launch: LaunchType, i: nat, r: Resource, a: Attempt): (es: seq<Event>)
    ensures |es| > 0 && es[0] == Probe(r.url, r.port)
    ensures !a.Done? ==> |es| == 1
    ensures a.Done? ==> |es| > 1 && es[1] == Write(Some(i))
  {
    [Probe(r.url, r.port)] + StepTail(launch, i, r, a)
  }

  /** Selecting one kind from a step's events: its selection from the probe, then from the
      tail. */
  lemma StepSplit(launch: LaunchType, i: nat, r: Resource, a: Attempt, k: EventKind)
    ensures Only(StepEvents(launch, i, r, a), k) == Only([Probe(r.url, r.port)], k) + Only(StepTail(launch, i, r, a), k)
    ensures a.Done? ==>
      Only(StepTail(launch, i, r, a), k) == Only([Write(Some(i))], k) + Only(Alert(launch, r.url, a.result.status), k)
    ensures !a.Done? ==> Only(StepTail(launch, i, r, a), k) == []
  {
    OnlyAppend([Probe(r.url, r.port)], StepTail(launch, i, r, a), k);
    if a.Done? {
      OnlyAppend([Write(Some(i))], Alert(launch, r.url, a.result.status), k);
    }
  }

  /** Handling one resource probes it, once. */
  lemma StepProbes(launch: LaunchType, i: nat, r: Resource, a: Attempt)
    ensures Only(StepEvents(launch, i, r, a), ProbeKind) == [Probe(r.url, r.port)]
  {
    if a.Done? {
      AlertKinds(launch, r.url, a.result.status);
    }
    StepSplit(launch, i, r, a, ProbeKind);
  }

  /** Handling one resource writes once exactly when the probe answered and the write went
      through. */
  lemma StepWrites(launch: LaunchType, i: nat, r: Resource, a: Attempt)
    ensures |Only(StepEvents(launch, i, r, a), WriteKind)| == (if a.Done? then 1 else 0)
  {
    if a.Done? {
      AlertKinds(launch, r.url, a.result.status);
    }
    StepSplit(launch, i, r, a, WriteKind);
  }

  /** Handling one resource sounds once exactly when it wrote a down result. */
  lemma StepSounds(launch: LaunchType, i: nat, r: Resource, a: Attempt)
    ensures |Only(StepEvents(launch, i, r, a), SoundKind)| == (if Alerting(a) then 1 else 0)
  {
    if a.Done? {
      AlertKinds(launch, r.url, a.result.status);
    }
    StepSplit(launch, i, r, a, SoundKind);
  }

  /** Handling one resource never shows a success toast. */
  lemma StepNoSuccess(launch: LaunchType, i: nat, r: Resource, a: Attempt)
    ensures Only(StepEvents(launch, i, r, a), SuccessToastKind) == []
  {
    if a.Done? {
      AlertKinds(launch, r.url, a.result.status);
    }
    StepSplit(launch, i, r, a, SuccessToastKind);
  }

  /** Handling one resource shows the failure toast naming it exactly when it wrote a down
      result under a user launch. */
  lemma StepToasts(launch: LaunchType, i: nat, r: Resource, a: Attempt)
    ensures Only(StepEvents(launch, i, r, a), FailureToastKind) ==
      (if Alerting(a) && launch.UserInitiated? then [UnreachableToast(r.url)] else [])
    ensures |Only(StepEvents(launch, i, r, a), FailureToastKind)| == (if Alerting(a) && launch.UserInitiated? then 1 else 0)
  {
    if a.Done? {
      AlertKinds(launch, r.url, a.result.status);
    }
    StepSplit(launch, i, r, a, FailureToastKind);
  }

  /** The whole sweep's events over the resources `rs`, handled in index order. */
  function SweepEvents(launch: LaunchType, rs: seq<Resource>, attempts: seq<Attempt>): seq<Event>
    requires |rs| == |attempts|
  {
    if rs == [] then []
    else
      var n := |rs| - 1;
      SweepEvents(launch, rs[..n], attempts[..n]) + StepEvents(launch, n, rs[n], attempts[n])
  }

  /** Same url, type and port. */
  predicate SameEndpoint(r: Resource, s: Resource)
  {
    r.url == s.url && r.kind == s.kind && r.port == s.port
  }

  /** Resource `r` once its attempt is over: merged with the probe result when the write
      went through, as it was otherwise. */
  function Settle(r: Resource, a: Attempt): Resource
  {
    if a.Done? then Merge(r, a.result) else r
  }

  /** The stored list once the first `i` resources of `rs` have been handled. */
  function SettledUpTo(rs: seq<Resource>, attempts: seq<Attempt>, i: nat): seq<Resource>
    requires |rs| == |attempts| && i <= |rs|
  {
    seq(|rs|, j requires 0 <= j < |rs| => if j < i then Settle(rs[j], attempts[j]) else rs[j])
  }

  /** Handling resource `i` changes the stored list at index `i` only. */
  lemma SettleNext(rs: seq<Resource>, attempts: seq<Attempt>, i: nat)
    requires |rs| == |attempts| && i < |rs|
    ensures SettledUpTo(rs, attempts, i + 1) == SettledUpTo(rs, attempts, i)[i := Settle(rs[i], attempts[i])]
  {
  }

  /** Writing the merged record at index `i` stores the list with resource `i` handled. */
  lemma SettleWrite(b: Blob, rs: seq<Resource>, attempts: seq<Attempt>, i: nat)
    requires |rs| == |attempts| && i < |rs| && attempts[i].Done?
    requires Fetch(b) == SettledUpTo(rs, attempts, i)
    ensures Fetch(UpdateResourceList(b, Merge(rs[i], attempts[i].result), Some(i))) == SettledUpTo(rs, attempts, i + 1)
  {
    SettleNext(rs, attempts, i);
  }

  /** Once every resource is handled, each record carries its own probe result when the
      write went through and is untouched otherwise; url, type and port never change. */
  lemma SettledAll(rs: seq<Resource>, attempts: seq<Attempt>)
    requires |rs| == |attempts|
    ensures |SettledUpTo(rs, attempts, |rs|)| == |rs|
    ensures forall i :: 0 <= i < |rs| && attempts[i].Done? ==>
      SettledUpTo(rs, attempts, |rs|)[i] == Merge(rs[i], attempts[i].result)
    ensures forall i :: 0 <= i < |rs| && !attempts[i].Done? ==> SettledUpTo(rs, attempts, |rs|)[i] == rs[i]
    ensures forall i :: 0 <= i < |rs| ==> SameEndpoint(SettledUpTo(rs, attempts, |rs|)[i], rs[i])
  {
  }

  /** Handling one more resource appends its events to the sweep's trace. */
  lemma SweepEventsSnoc(launch: LaunchType, rs: seq<Resource>, attempts: seq<Attempt>, i: nat)
    requires |rs| == |attempts| && i < |rs|
    ensures SweepEvents(launch, rs[..i + 1], attempts[..i + 1])
      == SweepEvents(launch, rs[..i], attempts[..i]) + StepEvents(launch, i, rs[i], attempts[i])
  {
    assert rs[..i + 1][..i] == rs[..i];
    assert attempts[..i + 1][..i] == attempts[..i];
  }

  /** Every resource is probed once, in index order, whatever happens to the others. */
  lemma {:induction false} SweepProbesInOrder(launch: LaunchType, rs: seq<Resource>, attempts: seq<Attempt>)
    requires |rs| == |attempts|
    ensures |Only(SweepEvents(launch, rs, attempts), ProbeKind)| == |rs|
    ensures forall j :: 0 <= j < |rs| ==>
      Only(SweepEvents(launch, rs, attempts), ProbeKind)[j] == Probe(rs[j].url, rs[j].port)
  {
    if rs != [] {
      var n := |rs| - 1;
      SweepProbesInOrder(launch, rs[..n], attempts[..n]);
      StepProbes(launch, n, rs[n], attempts[n]);
      OnlyAppend(SweepEvents(launch, rs[..n], attempts[..n]), StepEvents(launch, n, rs[n], attempts[n]), ProbeKind);
    }
  }

  /** A sweep writes once per attempt whose write went through. */
  lemma {:induction false} SweepWriteCount(launch: LaunchType, rs: seq<Resource>, attempts: seq<Attempt>)
    requires |rs| == |attempts|
    ensures |Only(SweepEvents(launch, rs, attempts), WriteKind)| == Completions(attempts)
  {
    if rs != [] {
      var n := |rs| - 1;
      assert SweepEvents(launch, rs, attempts)
        == SweepEvents(launch, rs[..n], attempts[..n]) + StepEvents(launch, n, rs[n], attempts[n]);
      SweepWriteCount(launch, rs[..n], attempts[..n]);
      StepWrites(launch, n, rs[n], attempts[n]);
      OnlyAppend(SweepEvents(launch, rs[..n], attempts[..n]), StepEvents(launch, n, rs[n], attempts[n]), WriteKind);
    }
  }

  /** A sweep sounds once per down result it wrote. */
  lemma {:induction false} SweepSoundCount(launch: LaunchType, rs: seq<Resource>, attempts: seq<Attempt>)
    requires |rs| == |attempts|
    ensures |Only(SweepEvents(launch, rs, attempts), SoundKind)| == Downs(attempts)
  {
    if rs != [] {
      var n := |rs| - 1;
      var before := SweepEvents(launch, rs[..n], attempts[..n]);
      var step := StepEvents(launch, n, rs[n], attempts[n]);
      assert SweepEvents(launch, rs, attempts) == before + step;
      SweepSoundCount(launch, rs[..n], attempts[..n]);
      StepSounds(launch, n, rs[n], attempts[n]);
      OnlyAppend(before, step, SoundKind);
    }
  }

  /** A sweep shows one failure toast per down result it wrote when the user launched it,
      none in the background, and never a success toast. */
  lemma {:induction false} SweepToastCount(launch: LaunchType, rs: seq<Resource>, attempts: seq<Attempt>)
    requires |rs| == |attempts|
    ensures |Only(SweepEvents(launch, rs, attempts), FailureToastKind)| == (if launch.UserInitiated? then Downs(attempts) else 0)
    ensures Only(SweepEvents(launch, rs, attempts), SuccessToastKind) == []
  {
    if rs != [] {
      var n := |rs| - 1;
      var before := SweepEvents(launch, rs[..n], attempts[..n]);
      var step := StepEvents(launch, n, rs[n], attempts[n]);
      assert SweepEvents(launch, rs, attempts) == before + step;
      SweepToastCount(launch, rs[..n], attempts[..n]);
      StepToasts(launch, n, rs[n], attempts[n]);
      StepNoSuccess(launch, n, rs[n], attempts[n]);
      OnlyAppend(before, step, FailureToastKind);
      OnlyAppend(before, step, SuccessToastKind);
    }
  }

  /** The loop of a sweep over a non-empty list: handle every resource in index order,
      writing each completed probe result back at its own index. */
  method SweepAll(launch: LaunchType, b: Blob, attempts: seq<Attempt>) returns (b': Blob, trace: seq<Event>)
    requires |attempts| == |Fetch(b)|
    ensures Fetch(b') == SettledUpTo(Fetch(b), attempts, |Fetch(b)|)
    ensures trace == SweepEvents(launch, Fetch(b), attempts)
  {
    var resources := Fetch(b);
    b', trace := b, [];
    var i := 0;
    while i < |resources|
      invariant 0 <= i <= |resources|
      invariant Fetch(b') == SettledUpTo(resources, attempts, i)
      invariant trace == SweepEvents(launch, resources[..i], attempts[..i])
    {
      var resource := resources[i];
      if attempts[i].Done? {
        SettleWrite(b', resources, attempts, i);
        b' := UpdateResourceList(b', Merge(resource, attempts[i].result), Some(i));
      } else {
        SettleNext(resources, attempts, i);
      }
      SweepEventsSnoc(launch, resources, attempts, i);
      trace := trace + StepEvents(launch, i, resource, attempts[i]);
      i := i + 1;
    }
    assert resources[..i] == resources && attempts[..i] == attempts;
  }

  /** One sweep. `attempts[i]` is how probing and writing resource `i` turns out.
      Returns the blob left in storage and the events, in order. An empty list is left
      as it is read: nothing is written back. */
  method CheckStatus(launch: LaunchType, b: Blob, attempts: seq<Attempt>) returns (b': Blob, trace: seq<Event>)
    requires |attempts| == |Fetch(b)|
    ensures Fetch(b) == [] ==> b' == b && trace == []
    ensures |Fetch(b')| == |Fetch(b)|
    ensures forall i :: 0 <= i < |Fetch(b)| && attempts[i].Done? ==>
      Fetch(b')[i] == Merge(Fetch(b)[i], attempts[i].result)
    ensures forall i :: 0 <= i < |Fetch(b)| && !attempts[i].Done? ==> Fetch(b')[i] == Fetch(b)[i]
    ensures forall i :: 0 <= i < |Fetch(b)| ==> SameEndpoint(Fetch(b')[i], Fetch(b)[i])
    ensures trace == SweepEvents(launch, Fetch(b), attempts)
  {
    if |Fetch(b)| == 0 {
      return b, [];
    }
    b', trace := SweepAll(launch, b, attempts);
    SettledAll(Fetch(b), attempts);
  }
}
